=== FILE: README.md ===
# todo-rust outline model

A Dafny model of the core of `todo`, a terminal todo-list manager. A list is a
plain-text outline file. Each line is classified into a typed record: an open or
completed checkbox `Todo`, one of three header levels, a bullet, free text, or
an empty line. The interactive session moves a cursor between the `Todo`
records and toggles them. It saves the list on quit, and it celebrates when
the last open item is checked. The command line can also append a new
checkbox line to a list file.

The model has five modules:

- `Strings` (strings.dfy) holds Rust's `char::is_whitespace` (the Unicode
  White_Space set), `str::trim`, `str::starts_with`, and the line splitting of
  `BufRead::lines`, with its inverse `JoinLines`.
- `Outline` (outline.dfy) holds `LineType` and `TodoItem`, the classifier that
  `App::load_todos` applies to every trimmed line, and the rendering that
  `App::save_todos` writes. Its central result is the round trip: a record is
  stable under save-and-reload exactly when the classifier can produce it. It
  follows that loading a saved list gives the same records, and that saving is
  idempotent from the second save on.
- `Selection` (selection.dfy) holds the cursor operations of `App`: the
  initial selection, `next`, `previous`, `goto_top`, `goto_bottom`,
  `toggle_current` and `count_todos`. `next` and `previous` are written as the
  source's loops. They are proved equal to a reference definition, "the nearest
  `Todo` in that direction, circularly", and that definition is itself
  characterised.
- `Session` (session.dfy) holds the key dispatch of `run_app` as a pure step
  function on (records, selection). It returns an outcome: continue, save and
  quit, or save and celebrate. This module also holds the celebration trigger
  and a run over a sequence of events.
- `Lists` (lists.dfy) holds list-name truncation at the first `.`, the file
  name `name.ext`, and the line that `todo add` appends to a list file.

Behaviour of the code worth knowing:

- Saving is not byte-for-byte. Every record is written with a terminating
  newline, so a file whose last line lacks one gains it
  (`Strings.FinalNewlineOptional`, `Outline.ReloadIsIdentity`). Surrounding
  whitespace and the `[X]` spelling are normalised on the first save.
- The header checks run `= `, then `== `, then `=== `. This order is harmless
  because the three prefixes exclude each other (`Outline.HeaderOrderIrrelevant`).
- `next` and `previous` stop on a `Todo` or back at the start. With one `Todo`
  and the cursor on it, the cursor stays put.
- After a celebration, the key that dismisses the fireworks is never
  dispatched. A `q` pressed then does not quit (`Session.CelebrationSwallowsKey`).

## Model

| member | source | states |
|---|---|---|
| Strings.Trim | src/main.rs:147 | the trimmed line has no whitespace at either end, and a line that already has none is left unchanged |
| Strings.TrimEmptyIffAllWs | src/main.rs:196-201 | a line is classified as empty exactly when it consists only of whitespace |
| Strings.SplitLines | src/main.rs:145 | reading the lines of a text gives none exactly when the text is empty; that no line holds a newline and that the lines rejoin to the text are `Strings.SplitLinesNoNewline`, `Strings.JoinSplit` and `Strings.SplitJoin` |
| Strings.SplitLinesNoNewline | src/main.rs:145 | no line read from a text contains a newline |
| Strings.SplitJoin | src/main.rs:145 | reading the lines of newline-terminated lines that contain no newline gives those lines back |
| Strings.JoinSplit | src/main.rs:145 | putting the lines of a text back together, each with its newline, gives the text, plus a final newline when it had none |
| Strings.FinalNewlineOptional | src/main.rs:145 | a missing final newline does not change the lines that are read |
| Strings.AppendLine | src/main.rs:145 | appending a line and a newline to a text that is empty or newline-terminated appends exactly that line to its lines |
| Outline.Classify | src/main.rs:149-208 | only a checkbox line gives a completed record, exactly the empty line gives `Empty`, and a `Text` record keeps the whole line (the full classification is `Outline.ClassifySpec`) |
| Outline.ClassifySpec | src/main.rs:147-208 | each marker selects its kind exactly, in both directions: the checkbox prefixes give `Todo`, `= `/`== `/`=== ` give the three header levels, and `* ` not followed by `[` gives a bullet. An empty line gives `Empty` and anything else gives `Text`. Only `* [x]`/`* [X]` give a completed record. A `Todo` keeps its trimmed remainder, and every other kind re-renders to the line byte for byte |
| Outline.ParseLine | src/main.rs:145-147 | a line loads as `Empty` exactly when it is all whitespace, and a `Text` record holds the trimmed line |
| Outline.HeaderOrderIrrelevant | src/main.rs:168-188 | testing the header prefixes longest first classifies every line the same as the shortest-first order of `App::load_todos` |
| Outline.Render | src/main.rs:217-231 | every kind but `Empty` ends its line with the record's text, `Empty` renders as nothing before its newline, a `Text` line is the text alone, and a `Todo` line is a checkbox that shows `x` exactly when the record is completed |
| Outline.RenderLine | src/main.rs:217-233 | each record is written as exactly one line ending in a newline, with no other newline when its text has none |
| Outline.ParseLineCanonical | src/main.rs:147-208 | every classified line is canonical: completed only for a `Todo`, a trimmed `Todo` text, header and bullet texts that end solid, a bullet text not starting with `[`, and a text line that is trimmed and carries no marker |
| Outline.RenderParse | src/main.rs:147-233 | reloading the rendered line of a canonical record gives the record back |
| Outline.CanonicalIffStable | src/main.rs:147-233 | a record survives save-and-reload unchanged exactly when it is canonical |
| Outline.LineRoundTrip | src/main.rs:147-233 | reloading the rendering of a classified line gives the same record (so `[X]` is saved as `[x]` and stays completed) |
| Outline.Parse | src/main.rs:145-208 | one record per line read, so content has records exactly when it is non-empty (its round trips with `Outline.Serialize` are `Outline.ParseSerialize` and `Outline.ReloadIsIdentity`) |
| Outline.Load | src/main.rs:135-146 | a missing file loads as an empty list, and every loaded list is well formed |
| Outline.ParseWellFormed | src/main.rs:145-208 | the records of any content are canonical and contain no newline |
| Outline.Serialize | src/main.rs:214-236 | the saved content is empty exactly when the list is, and otherwise ends in a newline |
| Outline.SerializeOneLinePerRecord | src/main.rs:214-234 | the saved content splits into exactly one rendered line per record |
| Outline.ParseSerialize | src/main.rs:145-234 | saving well-formed records and loading the content gives the records back |
| Outline.ReloadIsIdentity | src/main.rs:135-234 | load, save, load: the second load equals the first |
| Outline.SaveIdempotent | src/main.rs:214-234 | from the second save on, saving no longer changes the content |
| Selection.Steps | src/main.rs:240-270 | the circular search stops at the first `Todo` at least `d` steps away, or after a full turn, and skips no `Todo` |
| Selection.MoveSpec | src/main.rs:240-270 | `next`/`previous` keep the selection in range and leave it unchanged on an empty list. They land on a `Todo` exactly when the list has one, and leave the selection unchanged when it has none |
| Selection.MoveNearest | src/main.rs:240-270 | the new selection is the nearest `Todo` strictly after (before) the start, circularly. No record passed on the way is a `Todo`, and only a full turn back to the start can end on a record that is not one |
| Selection.Next | src/main.rs:240-252 | the loop of `App::next`, advancing with `(s + 1) % n`, computes exactly the reference `Move` forward |
| Selection.Previous | src/main.rs:254-270 | the loop of `App::previous`, stepping back with wrap-around from 0 to `n - 1`, computes exactly the reference `Move` backward |
| Selection.FirstTodo | src/main.rs:272-277 | `position` finds the first `Todo`, and finds none exactly when there is no `Todo` |
| Selection.LastTodo | src/main.rs:279-284 | `rposition` finds the last `Todo`, and finds none exactly when there is no `Todo` |
| Selection.GotoTop | src/main.rs:272-277 | selects the first `Todo` when there is one, else 0 |
| Selection.GotoBottom | src/main.rs:279-284 | selects the last `Todo` when there is one, else the last index, saturating to 0 on an empty list |
| Selection.InitialSelection | src/main.rs:126 | the selection `App::new` starts with is the one `goto_top` picks, and it is valid |
| Selection.ToggleCurrent | src/main.rs:286-292 | length, kinds and texts are unchanged, and a record's flag changes exactly when it is the selected record and is a `Todo` |
| Selection.ToggleTwice | src/main.rs:286-292 | toggling twice restores the list |
| Selection.CountTodos | src/main.rs:294-302 | the incomplete and complete counts add up to the number of `Todo` records, and each is positive exactly when a `Todo` with that completion exists |
| Selection.TallyCoversTodos | src/main.rs:294-302 | the incomplete and complete tallies add up to the number of `Todo` records |
| Selection.TallyPositive | src/main.rs:294-302 | a count is positive exactly when a `Todo` with that flag exists |
| Selection.ToggleMovesOne | src/main.rs:286-302 | a toggle on a `Todo` moves it from one count to the other, and any other toggle changes neither count |
| Session.ActionOf | src/main.rs:820-828 | exactly `q` quits; `j`/Down move next; `k`/Up move previous; `g` goes to the top and `G` to the bottom; Space/Enter toggle; non-press events and every other key do nothing |
| Session.Init | src/main.rs:124-133 | the starting selection is valid and on a `Todo` whenever the list has one |
| Session.Step | src/main.rs:817-865 | every event keeps the length, kinds and texts and a valid selection. `j`/Down and `k`/Up move the selection to the nearest `Todo` forward or backward, `g`/`G` go to the top or bottom, and none of them changes records or saves. A toggle changes the selected record and nothing else, and it celebrates, after saving the toggled records, exactly when the trigger holds. Quitting happens exactly on `q`, after saving the current records. Ignored events change nothing |
| Session.StepCelebratesIff | src/main.rs:828-842 | a toggle event celebrates exactly when the selected record is an open `Todo` and every other `Todo` is complete |
| Session.StepKeepsOnTodo | src/main.rs:817-828 | if the cursor rests on a `Todo` whenever there is one, every event keeps it so |
| Session.Celebrates | src/main.rs:828-841 | whenever the records after the toggle have the same kinds as before, as a toggle leaves them, the trigger's third conjunct ("the list has a `Todo`") adds nothing: it fires exactly when an open `Todo` existed before and every `Todo` is complete after; exactly which toggle fires it is `Session.CelebratesIff` |
| Session.CelebratesIff | src/main.rs:828-841 | the celebration fires exactly when the selected record is an open `Todo` and every other `Todo` is complete |
| Session.ReopenNeverCelebrates | src/main.rs:828-841 | un-completing a `Todo` never fires the celebration |
| Session.ThirdConjunctRedundant | src/main.rs:841 | the trigger's "any `Todo`" conjunct is implied by the other two |
| Session.CelebratesCounts | src/main.rs:828-841 | the celebration fires exactly when the toggle takes the incomplete count from one to zero |
| Session.AfterDismiss | src/main.rs:679-684 | the fireworks consume every non-key event and then the first key event of any kind, and return what follows |
| Session.Run | src/main.rs:814-865 | a session over a sequence of events keeps the list's length, every record's kind and text and a valid selection, and without a quit it saves at most once per event |
| Session.RunSkipsDismissKey | src/main.rs:853-854 | after a celebration, the next key event is consumed by the fireworks and the session goes on from the event after it, with the celebration's save first |
| Session.CelebrationSwallowsKey | src/main.rs:679-684 | checking the only item and then pressing `q` celebrates and saves once and does not quit, because the `q` only dismisses the fireworks |
| Session.RunQuitSavesLast | src/main.rs:820-823 | a session that quits has saved its final records last |
| Session.RunKeepsOnTodo | src/main.rs:814-865 | the cursor stays on a `Todo` for a whole session started by `App::new` |
| Session.SingleItemCelebration | src/main.rs:828-842 | with one open item, checking it celebrates and saves it checked, and unchecking it again does not celebrate |
| Lists.TruncateListName | src/main.rs:407-411 | the cut name has no `.`, is a prefix of the name, and is either the whole name or stops just before its first `.` |
| Lists.TruncateIdempotent | src/main.rs:430-434 | a name without `.` is unchanged, and cutting twice is cutting once |
| Lists.FileName | src/main.rs:358 | the file name is the list name, a `.`, then exactly the extension |
| Lists.FileNameTruncates | src/main.rs:430-435 | cutting the file name of a list whose name has no `.` gives the list name back |
| Lists.TargetFileName | src/main.rs:430-435 | the file chosen for a typed list name is the name up to its first `.`, a `.`, then exactly the extension, and it cuts back to the same list name |
| Lists.AddLine | src/main.rs:447 | the added line ends in a newline and contains no other newline when the text has none |
| Lists.AddedLineParses | src/main.rs:447 | the added line loads as an open `Todo` holding the trimmed text |
| Lists.AppendTodo | src/main.rs:447-457 | the file keeps its content in front and gains one newline-terminated line: exactly the six characters `* [ ] ` and then the text; that on a file that is empty or ends in a newline the result loads as one more open `Todo` is `Lists.AppendTodoAddsOne` |
| Lists.AppendTodoAddsOne | src/main.rs:447-457 | appending to a file that is empty or ends in a newline adds exactly one open `Todo` after the existing records |
| Lists.AppendTodoMergesLastLine | src/main.rs:447-457 | appending to a one-line file without a final newline leaves one merged record where two are intended |
| Lists.AppendTodoMergedExample | src/main.rs:447-457 | the todo `b` appended to a file holding `a` becomes the text line `a* [ ] b` |
| Lists.AppendTodoFixedAddsOne | src/main.rs:447-457 | with the missing newline supplied first, every file gains exactly one open `Todo` after its records |
| Lists.AppendTodoFixedAgrees | src/main.rs:447-457 | the corrected append writes exactly what the program writes when the file is empty or already ends in a newline |

## Left out

- Configuration is not modelled: the TOML file, its defaults and loading or saving it all go through a foreign library and file I/O.
- `expand_tilde`, creating the list directory and the list file, and listing the directory are not modelled. They depend on the home directory, path semantics and the filesystem.
- File reading and writing are not modelled. Content is a string parameter, and a save is the content it would write. I/O errors are not modelled either, and a line that is not valid UTF-8, which makes loading fail, is out of scope.
- `BufRead::lines` also drops a `\r` before each `\n`. This is not modelled separately, because `\r` is whitespace and `trim` removes it anyway.
- `display_todo_list` (the non-interactive listing) is not modelled. It is coloured console output that repeats the same classifier.
- The editor invocation, standard-input detection and argument parsing are not modelled. They are process and terminal plumbing.
- Drawing the user interface, raw mode, the alternate screen and the fireworks animation are not modelled. These are terminal side effects. A celebration is recorded as an outcome. The fireworks then wait for the next key event of any kind, press or not, and consume it together with any non-key events before it (`Session.AfterDismiss`). After that the session continues.
- Key modifiers are not modelled. The dispatch matches on the key code alone, so the model's key event carries no modifiers.
- Selection.Next: requires a selection that is in range, or 0 on an empty list. From an out-of-range selection, the loop of `App::next` never ends when the list has no `Todo`, and the session never creates such a selection.
- Selection.Previous: same requirement. From selection `|items|` the loop of `App::previous` never ends when the list has no `Todo`; from a larger selection the index at src/main.rs:266 is out of range and panics on the first pass, whatever the records. The session never creates either selection.
- Session.Run: its own contract states only that the list's length, every record's kind and text and a valid selection are kept. What the saves contain is stated by `Session.Step`, `Session.RunQuitSavesLast` and `Session.RunSkipsDismissKey`.

## Findings

| source | as written | input that shows it | evidently intended | confidence | as-written member | corrected member |
|---|---|---|---|---|---|---|
| src/main.rs:447-457 | `todo add` appends `* [ ] text` and a newline to the file as it is | a list file holding `a` with no final newline, text `b`: the file becomes `a* [ ] b` and a newline, one text record | the file gains an open `Todo` `b` after its records | medium, not executed | Lists.AppendTodoMergesLastLine | Lists.AppendTodoFixedAddsOne |

=== FILE: lists.dfy ===
/** The small string helpers around list files: the list name a user types is
    cut at its first `.`, a list lives in the file `name.ext`, and `todo add`
    appends one checkbox line to that file. */
module Lists {
  import opened Strings
  import opened Outline

  /** The name before the first `.`, or the whole name when it has none
      (`split('.').next()`). */
  function TruncateListName(name: string): (r: string)
    ensures '.' !in r
    ensures HasPrefix(name, r)
    ensures r == name || (|r| < |name| && name[|r|] == '.')
  {
    IndexOfFirst(name, '.');
    if '.' in name then name[..IndexOf(name, '.')] else name
  }

  /** A name without `.` is kept; cutting twice is cutting once. */
  lemma TruncateIdempotent(name: string)
    ensures '.' !in name ==> TruncateListName(name) == name
    ensures TruncateListName(TruncateListName(name)) == TruncateListName(name)
  {
  }

  /** The file a list is stored in: `format!("{}.{}", name, ext)`. */
  function FileName(name: string, ext: string): (f: string)
    ensures HasPrefix(f, name) && |f| == |name| + 1 + |ext| && f[|name|] == '.'
    ensures f[|name| + 1..] == ext
  {
    name + "." + ext
  }

  /** A list name without `.` is recovered from its file name by the cut, so
      passing a file name where a list name is expected selects the same list. */
  lemma FileNameTruncates(name: string, ext: string)
    requires '.' !in name
    ensures TruncateListName(FileName(name, ext)) == name
  {
    var f := FileName(name, ext);
    var r := TruncateListName(f);
    assert f[..|name|] == name;
  }

  /** The file a list name typed by the user refers to: the name up to its
      first `.`, a `.`, and the extension. */
  function TargetFileName(listName: string, ext: string): (f: string)
    ensures var name := TruncateListName(listName);
      && HasPrefix(f, name) && |f| == |name| + 1 + |ext|
      && f[|name|] == '.' && f[|f| - |ext|..] == ext
    ensures TruncateListName(f) == TruncateListName(listName)
  {
    FileNameTruncates(TruncateListName(listName), ext);
    FileName(TruncateListName(listName), ext)
  }

  /** The line `todo add` writes: `format!("* [ ] {}\n", text)`. */
  function AddLine(text: string): (line: string)
    ensures |line| > 0 && line[|line| - 1] == '\n'
    ensures NoNewline(text) ==> NoNewline(line[..|line| - 1])
  {
    assert forall i :: 6 <= i < 6 + |text| ==> ("* [ ] " + text + "\n")[i] == text[i - 6];
    "* [ ] " + text + "\n"
  }

  /** The added line loads as an open `Todo` with the trimmed text. */
  lemma AddedLineParses(text: string)
    ensures ParseLine("* [ ] " + text) == TodoItem(Trim(text), false, Todo)
  {
    var e := TrimEnd(text);
    if e == [] {
      TrimBlankCheckboxLine(text);
      ClassifyBareCheckbox();
      ParseLineVia("* [ ] " + text, "* [ ]", TodoItem([], false, Todo));
    } else {
      TrimSolidCheckboxLine(text);
      ClassifyCheckboxLine(e);
      ParseLineVia("* [ ] " + text, "* [ ] " + e, TodoItem(TrimStart(e), false, Todo));
    }
  }

  /** Trimming the added line with a blank text leaves the bare checkbox. */
  lemma TrimBlankCheckboxLine(text: string)
    requires TrimEnd(text) == []
    ensures Trim("* [ ] " + text) == "* [ ]"
  {
    assert TrimEnd("* [ ] " + text) == "* [ ]" by {
      TrimEndAppend("* [ ] ", text);
      TrimBareCheckbox();
    }
    TrimBareCheckbox();
    TrimVia("* [ ] " + text, "* [ ]", "* [ ]");
  }

  /** The checkbox prefix loses its trailing space and nothing else. */
  lemma TrimBareCheckbox()
    ensures TrimEnd("* [ ] ") == "* [ ]"
    ensures TrimStart("* [ ]") == "* [ ]"
  {
    TrimEndCheckbox();
    TrimStartCheckbox();
  }

  lemma TrimEndCheckbox()
    ensures TrimEnd("* [ ] ") == "* [ ]"
  {
    var s, box := "* [ ] ", "* [ ]";
    assert s[5] == ' ' && s[..5] == box;
    TrimEndLast(s);
    assert box[4] == ']';
    TrimEndLast(box);
  }

  lemma TrimStartCheckbox()
    ensures TrimStart("* [ ]") == "* [ ]"
  {
    var box := "* [ ]";
    assert box[0] == '*';
    TrimStartFirst(box);
  }

  /** Trimming the added line with a solid text trims only the text's end. */
  lemma TrimSolidCheckboxLine(text: string)
    requires TrimEnd(text) != []
    ensures Trim("* [ ] " + text) == "* [ ] " + TrimEnd(text)
  {
    var line := "* [ ] " + TrimEnd(text);
    assert TrimEnd("* [ ] " + text) == line by {
      TrimEndAppend("* [ ] ", text);
    }
    assert line[0] == '*';
    TrimStartFirst(line);
    TrimVia("* [ ] " + text, line, line);
  }

  /** `trim` is `trim_start` after `trim_end`. */
  lemma TrimVia(s: string, e: string, r: string)
    requires TrimEnd(s) == e && TrimStart(e) == r
    ensures Trim(s) == r
  {
  }

  lemma ClassifyBareCheckbox()
    ensures Classify("* [ ]") == TodoItem([], false, Todo)
  {
    CheckboxItem("* [ ]", "");
    assert "* [ ]" + "" == "* [ ]";
  }

  /** A checkbox followed by a space and a text with a solid end. */
  lemma ClassifyCheckboxLine(e: string)
    requires |e| > 0 && !IsWs(e[|e| - 1])
    ensures Classify("* [ ] " + e) == TodoItem(TrimStart(e), false, Todo)
  {
    assert "* [ ] " + e == "* [ ]" + (" " + e);
    CheckboxItem("* [ ]", " " + e);
    TrimSpaceThenTrimmedEnd(e);
  }

  /** A line whose trimmed form classifies as `r` parses as `r`. */
  lemma ParseLineVia(raw: string, trimmed: string, r: TodoItem)
    requires Trim(raw) == trimmed && Classify(trimmed) == r
    ensures ParseLine(raw) == r
  {
  }

  /** `trim` of a space and a string with a solid end is `trim_start` of the string. */
  lemma TrimSpaceThenTrimmedEnd(e: string)
    requires |e| > 0 && !IsWs(e[|e| - 1])
    ensures Trim(" " + e) == TrimStart(e)
  {
    var s := " " + e;
    assert s[|s| - 1] == e[|e| - 1];
    TrimEndLast(s);
    assert s[0] == ' ' && s[1..] == e;
    TrimStartFirst(s);
    TrimVia(s, s, TrimStart(e));
  }

  /** `todo add` as written: the file is opened for appending, so what it
      held stays in front, and one newline-terminated line of the text with
      its six-character checkbox prefix follows. */
  function AppendTodo(content: string, text: string): (r: string)
    ensures HasPrefix(r, content) && |r| == |content| + 6 + |text| + 1
    ensures r[|r| - 1] == '\n'
    ensures NoNewline(text) ==> NoNewline(r[|content|..|r| - 1])
    ensures r[|content|..|content| + 6] == "* [ ] " && r[|content| + 6..|r| - 1] == text
  {
    content + AddLine(text)
  }

  /** Appending to a file that is empty or ends in a newline adds exactly one
      open `Todo` holding the trimmed text, after the records already there. */
  lemma AppendTodoAddsOne(content: string, text: string)
    requires |content| == 0 || content[|content| - 1] == '\n'
    requires NoNewline(text)
    ensures Parse(AppendTodo(content, text)) == Parse(content) + [TodoItem(Trim(text), false, Todo)]
  {
    AppendTodoLine(content, text);
    ParseAppendLine(content, "* [ ] " + text);
    AddedLineParses(text);
  }

  /** A newline-terminated line appended after whole lines adds its record. */
  lemma ParseAppendLine(content: string, line: string)
    requires |content| == 0 || content[|content| - 1] == '\n'
    requires NoNewline(line)
    ensures Parse(content + line + "\n") == Parse(content) + [ParseLine(line)]
  {
    AppendLine(content, line);
    ParseOneMoreLine(content, content + line + "\n", line);
  }

  lemma ParseOneMoreLine(before: string, after: string, line: string)
    requires SplitLines(after) == SplitLines(before) + [line]
    ensures Parse(after) == Parse(before) + [ParseLine(line)]
  {
    var pa, pb := Parse(before), Parse(after);
    var la, lb := SplitLines(before), SplitLines(after);
    var want := pa + [ParseLine(line)];
    assert |pb| == |want|;
    forall i | 0 <= i < |pb|
      ensures pb[i] == want[i]
    {
      if i < |pa| {
        assert pb[i] == want[i] by {
          assert lb[i] == la[i];
        }
      } else {
        assert pb[i] == want[i] by {
          assert lb[i] == line;
        }
      }
    }
  }

  /** The appended text is one checkbox line and its newline. */
  lemma AppendTodoLine(content: string, text: string)
    requires NoNewline(text)
    ensures AppendTodo(content, text) == content + ("* [ ] " + text) + "\n"
    ensures NoNewline("* [ ] " + text)
  {
    var full := AddLine(text);
    assert "* [ ] " + text == full[..|full| - 1];
  }

  /** As written, appending to a file that is one line without its newline
      glues the new checkbox onto that line: the file still holds one record,
      where the intended result has two. */
  lemma AppendTodoMergesLastLine(last: string, text: string)
    requires |last| > 0 && NoNewline(last) && NoNewline(text)
    ensures Parse(AppendTodo(last, text)) == [ParseLine(last + "* [ ] " + text)]
    ensures |Parse(last) + [TodoItem(Trim(text), false, Todo)]| == 2
  {
    var line := last + "* [ ] " + text;
    assert AppendTodo(last, text) == line + "\n";
    assert NoNewline(line) by {
      assert forall i :: |last| + 6 <= i < |line| ==> line[i] == text[i - |last| - 6];
    }
    ParseOneLine(line);
    FinalNewlineOptional(last);
    ParseOneLine(last);
  }

  /** For example, the todo `b` appended to a file holding `a` becomes part of
      the text line `a* [ ] b`. */
  lemma AppendTodoMergedExample()
    ensures ParseLine("a" + "* [ ] " + "b") == TodoItem("a* [ ] b", false, Text)
  {
    var t := "a* [ ] b";
    assert "a" + "* [ ] " + "b" == t;
    assert t[0] == 'a' && t[|t| - 1] == 'b';
    ParseUnmarked(t);
  }

  /** A line that starts and ends solid and starts with neither `*` nor `=`
      loads as text, unchanged. */
  lemma ParseUnmarked(t: string)
    requires |t| > 0 && IsTrimmed(t) && t[0] != '*' && t[0] != '='
    ensures ParseLine(t) == TodoItem(t, false, Text)
  {
    MarkerChars(t);
  }

  /** A single newline-terminated line parses as that one line. */
  lemma ParseOneLine(line: string)
    requires NoNewline(line)
    ensures Parse(line + "\n") == [ParseLine(line)]
  {
    assert JoinLines([line]) == line + "\n";
    SplitJoin([line]);
  }

  /** `todo add` with the missing newline supplied first. */
  function AppendTodoFixed(content: string, text: string): string {
    var closed := if |content| > 0 && content[|content| - 1] != '\n' then content + "\n" else content;
    closed + AddLine(text)
  }

  /** With the newline supplied, every file gains exactly one open `Todo`. */
  lemma AppendTodoFixedAddsOne(content: string, text: string)
    requires NoNewline(text)
    ensures Parse(AppendTodoFixed(content, text)) == Parse(content) + [TodoItem(Trim(text), false, Todo)]
  {
    if |content| > 0 && content[|content| - 1] != '\n' {
      var closed := content + "\n";
      FinalNewlineOptional(content);
      assert Parse(closed) == Parse(content);
      AppendTodoAddsOne(closed, text);
      assert AppendTodoFixed(content, text) == AppendTodo(closed, text);
    } else {
      AppendTodoAddsOne(content, text);
    }
  }

  /** The fix changes nothing for a file that already ends in a newline. */
  lemma AppendTodoFixedAgrees(content: string, text: string)
    requires |content| == 0 || content[|content| - 1] == '\n'
    ensures AppendTodoFixed(content, text) == AppendTodo(content, text)
  {
  }
}

=== FILE: options.dfy ===
/** Rust's `Option`, for `Iterator::position`/`rposition` results and a file
    that may be absent. */
module Options {

  datatype Option<T> = None | Some(value: T) {

    /** Rust's `Option::unwrap_or`. */
    function UnwrapOr(default: T): T {
      if Some? then value else default
    }
  }
}

=== FILE: outline.dfy ===
/** The outline document: one typed record per line (`TodoItem` and `LineType`),
    the classifier `App::load_todos` applies to every line it reads, and the
    rendering `App::save_todos` writes back. */
module Outline {
  import opened Strings
  import opened Options

  datatype LineType = Todo | Header1 | Header2 | Header3 | Bullet | Text | Empty

  /** One line of a list. `completed` only means something for `Todo`. */
  datatype TodoItem = TodoItem(text: string, completed: bool, lineType: LineType)

  /** A checkbox line: `* [ ]`, `* [x]` or `* [X]`. */
  predicate IsCheckbox(t: string) {
    HasPrefix(t, "* [ ]") || HasPrefix(t, "* [x]") || HasPrefix(t, "* [X]")
  }

  /** A bullet: `* ` not followed by `[`. */
  predicate IsBulletLine(t: string) {
    HasPrefix(t, "* ") && !HasPrefix(t, "* [")
  }

  /** The line starts with one of the markers the classifier recognises. */
  predicate IsMarked(t: string) {
    IsCheckbox(t) || HasPrefix(t, "= ") || HasPrefix(t, "== ") || HasPrefix(t, "=== ")
    || IsBulletLine(t)
  }

  /** The markers in terms of their characters. */
  lemma MarkerChars(t: string)
    ensures HasPrefix(t, "= ") <==> 2 <= |t| && t[0] == '=' && t[1] == ' '
    ensures HasPrefix(t, "== ") <==> 3 <= |t| && t[0] == '=' && t[1] == '=' && t[2] == ' '
    ensures HasPrefix(t, "=== ") <==>
              4 <= |t| && t[0] == '=' && t[1] == '=' && t[2] == '=' && t[3] == ' '
    ensures HasPrefix(t, "* ") <==> 2 <= |t| && t[0] == '*' && t[1] == ' '
    ensures HasPrefix(t, "* [") <==> 3 <= |t| && t[0] == '*' && t[1] == ' ' && t[2] == '['
    ensures HasPrefix(t, "* [ ]") <==>
              5 <= |t| && t[0] == '*' && t[1] == ' ' && t[2] == '[' && t[3] == ' ' && t[4] == ']'
    ensures HasPrefix(t, "* [x]") <==>
              5 <= |t| && t[0] == '*' && t[1] == ' ' && t[2] == '[' && t[3] == 'x' && t[4] == ']'
    ensures HasPrefix(t, "* [X]") <==>
              5 <= |t| && t[0] == '*' && t[1] == ' ' && t[2] == '[' && t[3] == 'X' && t[4] == ']'
  {
    if 2 <= |t| { assert t[..2] == [t[0], t[1]]; }
    if 3 <= |t| { assert t[..3] == [t[0], t[1], t[2]]; }
    if 4 <= |t| { assert t[..4] == [t[0], t[1], t[2], t[3]]; }
    if 5 <= |t| { assert t[..5] == [t[0], t[1], t[2], t[3], t[4]]; }
  }

  /** The line a record is saved as, without its terminating newline: the
      record's marker, then its text; a checkbox shows `x` exactly when the
      record is completed. */
  function Render(r: TodoItem): (line: string)
    ensures r.lineType != Empty ==> |r.text| <= |line| && line[|line| - |r.text|..] == r.text
    ensures r.lineType == Empty ==> line == ""
    ensures r.lineType == Text ==> line == r.text
    ensures r.lineType == Todo ==>
      IsCheckbox(line) && (HasPrefix(line, "* [x]") <==> r.completed)
  {
    match r.lineType
    case Todo => (if r.completed then "* [x] " else "* [ ] ") + r.text
    case Header1 => "= " + r.text
    case Header2 => "== " + r.text
    case Header3 => "=== " + r.text
    case Bullet => "* " + r.text
    case Text => r.text
    case Empty => ""
  }

  /** The line a record is saved as, newline included. */
  function RenderLine(r: TodoItem): (line: string)
    ensures |line| > 0 && line[|line| - 1] == '\n'
    ensures NoNewline(r.text) ==> NoNewline(line[..|line| - 1])
  {
    var body := Render(r);
    assert forall i :: 0 <= i < |body| - |r.text| ==> body[i] != '\n';
    body + "\n"
  }

  /** The body of the loop in `App::load_todos`, applied to an already trimmed
      line; the checks run in the order `App::load_todos` gives them. Only a checkbox line is
      completed, only the empty line is `Empty`, and a text line is kept
      whole (`ClassifySpec` states the rest). */
  function Classify(t: string): (r: TodoItem)
    ensures r.completed ==> r.lineType == Todo
    ensures r.lineType == Empty <==> t == ""
    ensures r.lineType == Text ==> r.text == t
  {
    if HasPrefix(t, "* [ ]") then
      TodoItem(Trim(t[5..]), false, Todo)
    else if HasPrefix(t, "* [x]") || HasPrefix(t, "* [X]") then
      TodoItem(Trim(t[5..]), true, Todo)
    else if HasPrefix(t, "= ") then
      TodoItem(t[2..], false, Header1)
    else if HasPrefix(t, "== ") then
      TodoItem(t[3..], false, Header2)
    else if HasPrefix(t, "=== ") then
      TodoItem(t[4..], false, Header3)
    else if HasPrefix(t, "* ") && !HasPrefix(t, "* [") then
      TodoItem(t[2..], false, Bullet)
    else if |t| == 0 then
      TodoItem("", false, Empty)
    else
      TodoItem(t, false, Text)
  }

  /** What the classifier decides, stated without reference to the order of
      its checks: each marker selects its kind exactly (so the three header
      prefixes exclude each other, and a bullet never starts with `* [`),
      only a checkbox line can be completed, a checkbox keeps its trimmed
      remainder, and every other line is kept byte for byte. */
  lemma ClassifySpec(t: string)
    ensures Classify(t).lineType == Todo <==> IsCheckbox(t)
    ensures Classify(t).lineType == Header1 <==> HasPrefix(t, "= ")
    ensures Classify(t).lineType == Header2 <==> HasPrefix(t, "== ")
    ensures Classify(t).lineType == Header3 <==> HasPrefix(t, "=== ")
    ensures Classify(t).lineType == Bullet <==> IsBulletLine(t)
    ensures Classify(t).lineType == Empty <==> t == ""
    ensures Classify(t).lineType == Text <==> t != "" && !IsMarked(t)
    ensures Classify(t).completed <==> HasPrefix(t, "* [x]") || HasPrefix(t, "* [X]")
    ensures Classify(t).lineType == Todo ==> Classify(t).text == Trim(t[5..])
    ensures Classify(t).lineType != Todo ==> Render(Classify(t)) == t
  {
    MarkerChars(t);
  }

  /** The same rules tried longest header first, the order in which the
      format is usually described. */
  function ClassifyLongestHeaderFirst(t: string): TodoItem {
    if HasPrefix(t, "* [ ]") then
      TodoItem(Trim(t[5..]), false, Todo)
    else if HasPrefix(t, "* [x]") || HasPrefix(t, "* [X]") then
      TodoItem(Trim(t[5..]), true, Todo)
    else if HasPrefix(t, "=== ") then
      TodoItem(t[4..], false, Header3)
    else if HasPrefix(t, "== ") then
      TodoItem(t[3..], false, Header2)
    else if HasPrefix(t, "= ") then
      TodoItem(t[2..], false, Header1)
    else if HasPrefix(t, "* ") && !HasPrefix(t, "* [") then
      TodoItem(t[2..], false, Bullet)
    else if |t| == 0 then
      TodoItem("", false, Empty)
    else
      TodoItem(t, false, Text)
  }

  /** Checking `= ` before `== ` and `=== ` is harmless: the order of the
      header checks does not matter. */
  lemma HeaderOrderIrrelevant(t: string)
    ensures ClassifyLongestHeaderFirst(t) == Classify(t)
  {
    MarkerChars(t);
  }

  /** One line as read from the file: trimmed, then classified. A blank
      line is `Empty` and a text line keeps the trimmed line. */
  function ParseLine(line: string): (r: TodoItem)
    ensures r.lineType == Empty <==> AllWs(line)
    ensures r.lineType == Text ==> r.text == Trim(line)
  {
    TrimEmptyIffAllWs(line);
    Classify(Trim(line))
  }

  /** The records the classifier can produce: exactly those that survive a
      save and a reload unchanged (see `CanonicalIffStable`). */
  predicate Canonical(r: TodoItem) {
    (r.completed ==> r.lineType == Todo) &&
    match r.lineType
    case Todo => IsTrimmed(r.text)
    case Header1 => EndsSolid(r.text)
    case Header2 => EndsSolid(r.text)
    case Header3 => EndsSolid(r.text)
    case Bullet => EndsSolid(r.text) && r.text[0] != '['
    case Text => EndsSolid(r.text) && IsTrimmed(r.text) && !IsMarked(r.text)
    case Empty => r.text == ""
  }

  /** Non-empty and not ending in whitespace. */
  predicate EndsSolid(s: string) {
    |s| > 0 && !IsWs(s[|s| - 1])
  }

  /** A header classified from a trimmed line keeps a non-blank title. */
  lemma HeaderCanonical(t: string)
    requires IsTrimmed(t)
    requires Classify(t).lineType in {Header1, Header2, Header3}
    ensures Canonical(Classify(t))
  {
    var r := Classify(t);
    ClassifySpec(t);
    var k := |t| - |r.text|;
    assert t[k..] == r.text;
    assert k < |t| by {
      MarkerChars(t);
    }
    assert t[|t| - 1] == r.text[|r.text| - 1];
  }

  /** A bullet classified from a trimmed line keeps a non-blank text that does
      not start with `[`. */
  lemma BulletCanonical(t: string)
    requires IsTrimmed(t)
    requires Classify(t).lineType == Bullet
    ensures Canonical(Classify(t))
  {
    var r := Classify(t);
    ClassifySpec(t);
    MarkerChars(t);
    assert t == "* " + r.text;
    assert t[|t| - 1] == r.text[|r.text| - 1];
    assert t[2] == r.text[0];
  }

  /** Every classified line is canonical. */
  lemma ParseLineCanonical(line: string)
    ensures Canonical(ParseLine(line))
  {
    var t := Trim(line);
    ClassifySpec(t);
    var kind := Classify(t).lineType;
    if kind in {Header1, Header2, Header3} {
      HeaderCanonical(t);
    } else if kind == Bullet {
      BulletCanonical(t);
    }
  }

  /** A saved checkbox line reloads as the same item; `[X]` was already
      rewritten to `[x]` by the save. */
  lemma RenderParseTodo(r: TodoItem)
    requires r.lineType == Todo && IsTrimmed(r.text)
    ensures ParseLine(Render(r)) == r
  {
    var box := if r.completed then "* [x]" else "* [ ]";
    assert Render(r) == box + " " + r.text;
    ParseCheckboxLine(box, r.text);
  }

  /** A checkbox, one space and a trimmed text load as that checkbox item. */
  lemma ParseCheckboxLine(box: string, text: string)
    requires box == "* [ ]" || box == "* [x]"
    requires IsTrimmed(text)
    ensures ParseLine(box + " " + text) == TodoItem(text, box == "* [x]", Todo)
  {
    if text == "" {
      assert box + " " + text == box + " ";
      ParseBareBox(box);
    } else {
      ParseBoxedText(box, text);
    }
  }

  /** A checkbox with nothing after it loads as an item with an empty text. */
  lemma ParseBareBox(box: string)
    requires box == "* [ ]" || box == "* [x]"
    ensures ParseLine(box + " ") == TodoItem("", box == "* [x]", Todo)
  {
    var line := box + " ";
    assert Trim(line) == box by {
      assert line[..|line| - 1] == box;
      assert TrimEnd(line) == TrimEnd(box);
      assert IsTrimmed(box);
    }
    assert box + "" == box;
    CheckboxItem(box, "");
  }

  /** A checkbox, one space and a non-empty trimmed text: `trim` leaves the
      line alone and the text is what follows the space. */
  lemma ParseBoxedText(box: string, text: string)
    requires box == "* [ ]" || box == "* [x]"
    requires IsTrimmed(text) && text != ""
    ensures ParseLine(box + " " + text) == TodoItem(text, box == "* [x]", Todo)
  {
    var line := box + " " + text;
    assert Trim(line) == line by {
      assert line[0] == '*';
      assert line[|line| - 1] == text[|text| - 1];
      assert IsTrimmed(line);
    }
    TrimSpacePrefix(text);
    assert line == box + (" " + text);
    CheckboxItem(box, " " + text);
  }

  /** A checkbox marker followed by anything classifies as a checkbox item. */
  lemma CheckboxItem(box: string, rest: string)
    requires box == "* [ ]" || box == "* [x]"
    ensures Classify(box + rest) == TodoItem(Trim(rest), box == "* [x]", Todo)
  {
    var t := box + rest;
    assert t[..5] == box;
    assert t[5..] == rest;
  }

  /** A saved header or bullet line reloads as the same record. */
  lemma RenderParseMarked(r: TodoItem)
    requires r.lineType in {Header1, Header2, Header3, Bullet} && !r.completed
    requires EndsSolid(r.text) && (r.lineType == Bullet ==> r.text[0] != '[')
    ensures ParseLine(Render(r)) == r
  {
    var marker := match r.lineType
      case Header1 => "= "
      case Header2 => "== "
      case Header3 => "=== "
      case _ => "* ";
    assert Render(r) == marker + r.text;
    ParseMarkedLine(marker, r.lineType, r.text);
  }

  /** A header or bullet marker followed by a text that is non-blank at its
      end (and, for a bullet, does not start with `[`) loads as that record. */
  lemma ParseMarkedLine(marker: string, kind: LineType, text: string)
    requires (marker, kind) in {("= ", Header1), ("== ", Header2), ("=== ", Header3), ("* ", Bullet)}
    requires EndsSolid(text) && (kind == Bullet ==> text[0] != '[')
    ensures ParseLine(marker + text) == TodoItem(text, false, kind)
  {
    var line := marker + text;
    assert line[|line| - 1] == text[|text| - 1];
    assert IsTrimmed(line);
    MarkerChars(line);
    if kind == Bullet {
      assert line[2] == text[0];
    }
    ClassifySpec(line);
    var r := Classify(line);
    assert r.lineType == kind && !r.completed;
    assert marker + r.text == marker + text;
    assert r.text == (marker + r.text)[|marker|..];
  }

  /** Reloading the rendered line of a canonical record gives the record back. */
  lemma RenderParse(r: TodoItem)
    requires Canonical(r)
    ensures ParseLine(Render(r)) == r
  {
    if r.lineType == Todo {
      RenderParseTodo(r);
    } else if r.lineType in {Header1, Header2, Header3, Bullet} {
      RenderParseMarked(r);
    }
  }

  /** A record is canonical exactly when saving and reloading it leaves it
      unchanged. */
  lemma CanonicalIffStable(r: TodoItem)
    ensures Canonical(r) <==> ParseLine(Render(r)) == r
  {
    if Canonical(r) {
      RenderParse(r);
    } else if ParseLine(Render(r)) == r {
      ParseLineCanonical(Render(r));
    }
  }

  /** Load, save and load again: the second load sees the records of the first. */
  lemma LineRoundTrip(line: string)
    ensures ParseLine(Render(ParseLine(line))) == ParseLine(line)
  {
    ParseLineCanonical(line);
    RenderParse(ParseLine(line));
  }

  /** Records as read from a file: canonical, with no newline in any text. */
  predicate WellFormed(items: seq<TodoItem>) {
    forall i :: 0 <= i < |items| ==> Canonical(items[i]) && NoNewline(items[i].text)
  }

  /** The records of a file's content: one per line, so an empty file has
      none and a non-empty file at least one. */
  function Parse(content: string): (items: seq<TodoItem>)
    ensures |items| == |SplitLines(content)|
    ensures items == [] <==> content == ""
  {
    var lines := SplitLines(content);
    seq(|lines|, i requires 0 <= i < |lines| => ParseLine(lines[i]))
  }

  /** `App::load_todos`: a missing file is an empty list, not an error. */
  function Load(file: Option<string>): (items: seq<TodoItem>)
    ensures WellFormed(items)
    ensures file.None? ==> items == []
  {
    match file
    case None => []
    case Some(content) => ParseWellFormed(content); Parse(content)
  }

  function RenderAll(items: seq<TodoItem>): seq<string> {
    seq(|items|, i requires 0 <= i < |items| => Render(items[i]))
  }

  /** The content `App::save_todos` writes: every record's line followed by a
      newline. An empty list is an empty file; any other ends in a newline. */
  function Serialize(items: seq<TodoItem>): (content: string)
    ensures content == "" <==> items == []
    ensures content != "" ==> content[|content| - 1] == '\n'
  {
    JoinLines(RenderAll(items))
  }

  /** The text of a record is cut from its line, so a line without newlines
      gives a text without newlines. */
  lemma ParseLineNoNewline(line: string)
    requires NoNewline(line)
    ensures NoNewline(ParseLine(line).text)
  {
    TrimNoNewline(line);
    ClassifyNoNewline(Trim(line));
  }

  lemma ClassifyNoNewline(t: string)
    requires NoNewline(t)
    ensures NoNewline(Classify(t).text)
  {
    if IsCheckbox(t) {
      SuffixNoNewline(t, 5);
      TrimNoNewline(t[5..]);
    } else if HasPrefix(t, "= ") || IsBulletLine(t) {
      SuffixNoNewline(t, 2);
    } else if HasPrefix(t, "== ") {
      SuffixNoNewline(t, 3);
    } else if HasPrefix(t, "=== ") {
      SuffixNoNewline(t, 4);
    }
  }

  lemma SuffixNoNewline(t: string, k: nat)
    requires NoNewline(t) && k <= |t|
    ensures NoNewline(t[k..])
  {
    assert forall j :: 0 <= j < |t| - k ==> t[k..][j] == t[k + j];
  }

  /** Whatever the content, its records are well formed. */
  lemma ParseWellFormed(content: string)
    ensures WellFormed(Parse(content))
  {
    var lines := SplitLines(content);
    SplitLinesNoNewline(content);
    forall i | 0 <= i < |lines|
      ensures Canonical(Parse(content)[i]) && NoNewline(Parse(content)[i].text)
    {
      ParseLineCanonical(lines[i]);
      ParseLineNoNewline(lines[i]);
    }
  }

  /** Every record is saved as exactly one line: splitting the saved content
      into lines gives back one rendered line per record. */
  lemma SerializeOneLinePerRecord(items: seq<TodoItem>)
    requires forall i :: 0 <= i < |items| ==> NoNewline(items[i].text)
    ensures SplitLines(Serialize(items)) == RenderAll(items)
  {
    var lines := RenderAll(items);
    forall i | 0 <= i < |lines|
      ensures NoNewline(lines[i])
    {
      var line := RenderLine(items[i]);
      assert line[..|line| - 1] == lines[i];
    }
    SplitJoin(lines);
  }

  /** Saving well-formed records and loading the result gives them back. */
  lemma ParseSerialize(items: seq<TodoItem>)
    requires WellFormed(items)
    ensures Parse(Serialize(items)) == items
  {
    SerializeOneLinePerRecord(items);
    forall i | 0 <= i < |items|
      ensures Parse(Serialize(items))[i] == items[i]
    {
      RenderParse(items[i]);
    }
  }

  /** Load, save, load: the second load equals the first. */
  lemma ReloadIsIdentity(content: string)
    ensures Parse(Serialize(Parse(content))) == Parse(content)
  {
    ParseWellFormed(content);
    ParseSerialize(Parse(content));
  }

  /** Saving normalises: from the second save on, the content no longer changes. */
  lemma SaveIdempotent(content: string)
    ensures Serialize(Parse(Serialize(Parse(content)))) == Serialize(Parse(content))
  {
    ReloadIsIdentity(content);
  }
}

=== FILE: selection.dfy ===
/** The selection cursor of a loaded list: `App::new`'s initial selection,
    `next`, `previous`, `goto_top`, `goto_bottom`, `toggle_current` and
    `count_todos`. Only `Todo` records can be selected by navigation. */
module Selection {
  import opened Outline
  import opened Options

  predicate IsTodo(r: TodoItem) {
    r.lineType == Todo
  }

  predicate HasTodo(items: seq<TodoItem>) {
    exists i :: 0 <= i < |items| && IsTodo(items[i])
  }

  /** The selections the session can hold: an index into the list, or 0 when
      the list is empty. */
  predicate SelectionValid(n: nat, sel: nat) {
    sel < n || sel == 0
  }

  datatype Direction = Forward | Backward

  /** The index `d` steps from `start` in the given direction, wrapping around
      a list of `n` records. */
  function Walk(n: nat, start: nat, d: nat, dir: Direction): (i: nat)
    requires start < n && d <= n
    ensures i < n
  {
    match dir
    case Forward => if start + d < n then start + d else start + d - n
    case Backward => if d <= start then start - d else start + n - d
  }

  /** How many steps in direction `dir` lead from `start` to `i`. */
  function Offset(n: nat, start: nat, i: nat, dir: Direction): (d: nat)
    requires start < n && i < n
    ensures d < n && Walk(n, start, d, dir) == i
  {
    match dir
    case Forward => if start <= i then i - start else i + n - start
    case Backward => if i <= start then start - i else start + n - i
  }

  /** A full turn returns to the start, and nothing short of one does. */
  lemma WalkReturns(n: nat, start: nat, d: nat, dir: Direction)
    requires start < n && d <= n
    ensures Walk(n, start, d, dir) == start <==> d == 0 || d == n
  {
  }

  /** One more step of the walk is one step of `next` (`(s + 1) % n`) or of
      `previous` (`n - 1` from 0, else `s - 1`). */
  lemma WalkStep(n: nat, start: nat, d: nat, dir: Direction)
    requires start < n && d < n
    ensures dir == Forward ==> Walk(n, start, d + 1, dir) == (Walk(n, start, d, dir) + 1) % n
    ensures dir == Backward ==>
              Walk(n, start, d + 1, dir) == (var s := Walk(n, start, d, dir); if s == 0 then n - 1 else s - 1)
  {
  }

  /** The number of steps from `start` to the nearest `Todo` at least `d`
      steps away, or `|items|` (back at `start`) when there is none. */
  function Steps(items: seq<TodoItem>, start: nat, d: nat, dir: Direction): (e: nat)
    requires start < |items| && 1 <= d <= |items|
    ensures d <= e <= |items|
    ensures forall j :: d <= j < e ==> !IsTodo(items[Walk(|items|, start, j, dir)])
    ensures e < |items| ==> IsTodo(items[Walk(|items|, start, e, dir)])
    decreases |items| - d
  {
    if d == |items| || IsTodo(items[Walk(|items|, start, d, dir)]) then d
    else Steps(items, start, d + 1, dir)
  }

  /** Where `next` (`Forward`) or `previous` (`Backward`) moves the selection:
      the nearest `Todo` strictly after (before) it, circularly, which is the
      start itself when that is the only one; the start when there is none. */
  function Move(items: seq<TodoItem>, sel: nat, dir: Direction): nat
    requires SelectionValid(|items|, sel)
  {
    if |items| == 0 then sel else Walk(|items|, sel, Steps(items, sel, 1, dir), dir)
  }

  /** `Move` stays in range, finds a `Todo` exactly when there is one, leaves
      the selection alone when there is none, and skips nothing: every record
      passed on the way is not a `Todo`. */
  lemma MoveSpec(items: seq<TodoItem>, sel: nat, dir: Direction)
    requires SelectionValid(|items|, sel)
    ensures var r := Move(items, sel, dir);
      && SelectionValid(|items|, r)
      && (|items| == 0 ==> r == sel)
      && (|items| > 0 ==> (IsTodo(items[r]) <==> HasTodo(items)))
      && (!HasTodo(items) ==> r == sel)
  {
    var n := |items|;
    if n > 0 {
      var e := Steps(items, sel, 1, dir);
      var r := Walk(n, sel, e, dir);
      WalkReturns(n, sel, e, dir);
      if HasTodo(items) && !IsTodo(items[r]) {
        var i :| 0 <= i < n && IsTodo(items[i]);
        var d := Offset(n, sel, i, dir);
        WalkReturns(n, sel, d, dir);
        assert false;
      }
    }
  }

  /** `Move` is the nearest `Todo`: it lies `e` steps away, no record fewer
      than `e` steps away is a `Todo`, and only a full turn (`e == |items|`)
      may end on a record that is not one. */
  lemma MoveNearest(items: seq<TodoItem>, sel: nat, dir: Direction)
    requires sel < |items|
    ensures exists e ::
              && 1 <= e <= |items|
              && Move(items, sel, dir) == Walk(|items|, sel, e, dir)
              && (forall j :: 1 <= j < e ==> !IsTodo(items[Walk(|items|, sel, j, dir)]))
              && (e < |items| ==> IsTodo(items[Walk(|items|, sel, e, dir)]))
  {
    var e := Steps(items, sel, 1, dir);
    assert Move(items, sel, dir) == Walk(|items|, sel, e, dir);
  }

  /** `App::next`: its loop advances with `(s + 1) % n`
      until it meets a `Todo` or comes back to where it started. */
  method Next(items: seq<TodoItem>, sel: nat) returns (s: nat)
    requires SelectionValid(|items|, sel)
    ensures s == Move(items, sel, Forward)
  {
    var n := |items|;
    if n == 0 {
      return sel;
    }
    s := (sel + 1) % n;
    ghost var d: nat := 1;
    WalkStep(n, sel, 0, Forward);
    while !(IsTodo(items[s]) || s == sel)
      invariant 1 <= d <= n && s == Walk(n, sel, d, Forward)
      invariant Steps(items, sel, 1, Forward) == Steps(items, sel, d, Forward)
      decreases n - d
    {
      WalkReturns(n, sel, d, Forward);
      WalkStep(n, sel, d, Forward);
      s := (s + 1) % n;
      d := d + 1;
    }
    WalkReturns(n, sel, d, Forward);
  }

  /** `App::previous`: its loop steps back from 0 to
      `n - 1` and otherwise by one, until it meets a `Todo` or comes back to
      where it started. */
  method Previous(items: seq<TodoItem>, sel: nat) returns (s: nat)
    requires SelectionValid(|items|, sel)
    ensures s == Move(items, sel, Backward)
  {
    var n := |items|;
    if n == 0 {
      return sel;
    }
    s := if sel == 0 then n - 1 else sel - 1;
    ghost var d: nat := 1;
    WalkStep(n, sel, 0, Backward);
    while !(IsTodo(items[s]) || s == sel)
      invariant 1 <= d <= n && s == Walk(n, sel, d, Backward)
      invariant Steps(items, sel, 1, Backward) == Steps(items, sel, d, Backward)
      decreases n - d
    {
      WalkReturns(n, sel, d, Backward);
      WalkStep(n, sel, d, Backward);
      s := if s == 0 then n - 1 else s - 1;
      d := d + 1;
    }
    WalkReturns(n, sel, d, Backward);
  }

  /** `position`: the index of the first `Todo`, if any. */
  function FirstTodo(items: seq<TodoItem>): (r: Option<nat>)
    ensures r.Some? ==> r.value < |items| && IsTodo(items[r.value])
    ensures r.Some? ==> forall j :: 0 <= j < r.value ==> !IsTodo(items[j])
    ensures r.None? <==> !HasTodo(items)
  {
    if |items| == 0 then None
    else if IsTodo(items[0]) then Some(0)
    else match FirstTodo(items[1..])
      case None => None
      case Some(k) => Some(k + 1)
  }

  /** `rposition`: the index of the last `Todo`, if any. */
  function LastTodo(items: seq<TodoItem>): (r: Option<nat>)
    ensures r.Some? ==> r.value < |items| && IsTodo(items[r.value])
    ensures r.Some? ==> forall j :: r.value < j < |items| ==> !IsTodo(items[j])
    ensures r.None? <==> !HasTodo(items)
  {
    if |items| == 0 then None
    else if IsTodo(items[|items| - 1]) then Some(|items| - 1)
    else LastTodo(items[..|items| - 1])
  }

  /** `App::goto_top`: the first `Todo`, else 0. */
  function GotoTop(items: seq<TodoItem>): (sel: nat)
    ensures SelectionValid(|items|, sel)
    ensures HasTodo(items) ==> IsTodo(items[sel]) && forall j :: 0 <= j < sel ==> !IsTodo(items[j])
    ensures !HasTodo(items) ==> sel == 0
  {
    FirstTodo(items).UnwrapOr(0)
  }

  /** `App::goto_bottom`: the last `Todo`, else the last index, which
      saturates to 0 for an empty list. */
  function GotoBottom(items: seq<TodoItem>): (sel: nat)
    ensures SelectionValid(|items|, sel)
    ensures HasTodo(items) ==> IsTodo(items[sel]) && forall j :: sel < j < |items| ==> !IsTodo(items[j])
    ensures !HasTodo(items) ==> sel == if |items| == 0 then 0 else |items| - 1
  {
    LastTodo(items).UnwrapOr(if |items| == 0 then 0 else |items| - 1)
  }

  /** The selection `App::new` starts with: the first `Todo`, else 0. */
  function InitialSelection(items: seq<TodoItem>): (sel: nat)
    ensures sel == GotoTop(items)
    ensures SelectionValid(|items|, sel)
  {
    match FirstTodo(items)
    case Some(i) => i
    case None => 0
  }

  /** `App::toggle_current`: flip `completed` of the selected record when it
      is a `Todo`; otherwise do nothing. */
  function ToggleCurrent(items: seq<TodoItem>, sel: nat): (res: seq<TodoItem>)
    ensures |res| == |items|
    ensures forall i :: 0 <= i < |items| ==>
      res[i].text == items[i].text && res[i].lineType == items[i].lineType
      && (res[i].completed != items[i].completed <==> i == sel && IsTodo(items[i]))
  {
    if sel < |items| && IsTodo(items[sel]) then
      items[sel := items[sel].(completed := !items[sel].completed)]
    else items
  }

  /** Toggling twice restores the list. */
  lemma ToggleTwice(items: seq<TodoItem>, sel: nat)
    ensures ToggleCurrent(ToggleCurrent(items, sel), sel) == items
  {
    var twice := ToggleCurrent(ToggleCurrent(items, sel), sel);
    assert forall i :: 0 <= i < |items| ==> twice[i] == items[i];
  }

  /** The number of `Todo` records whose flag is `done`. */
  function Tally(items: seq<TodoItem>, done: bool): nat {
    if |items| == 0 then 0
    else (if IsTodo(items[0]) && items[0].completed == done then 1 else 0) + Tally(items[1..], done)
  }

  function TodoCount(items: seq<TodoItem>): nat {
    if |items| == 0 then 0 else (if IsTodo(items[0]) then 1 else 0) + TodoCount(items[1..])
  }

  /** `App::count_todos`: (incomplete, complete). Every `Todo` is counted
      exactly once, and a count is positive exactly when a `Todo` with that
      completion exists. */
  function CountTodos(items: seq<TodoItem>): (counts: (nat, nat))
    ensures counts.0 + counts.1 == TodoCount(items)
    ensures counts.0 > 0 <==> exists i :: 0 <= i < |items| && IsTodo(items[i]) && !items[i].completed
    ensures counts.1 > 0 <==> exists i :: 0 <= i < |items| && IsTodo(items[i]) && items[i].completed
  {
    TallyCoversTodos(items);
    TallyPositive(items, false);
    TallyPositive(items, true);
    (Tally(items, false), Tally(items, true))
  }

  /** Every `Todo` is tallied once, as incomplete or as complete. */
  lemma {:induction false} TallyCoversTodos(items: seq<TodoItem>)
    ensures Tally(items, false) + Tally(items, true) == TodoCount(items)
  {
    if |items| > 0 {
      TallyCoversTodos(items[1..]);
    }
  }

  /** There is an incomplete `Todo` exactly when the incomplete count is positive. */
  lemma {:induction false} TallyPositive(items: seq<TodoItem>, done: bool)
    ensures Tally(items, done) > 0 <==> exists i :: 0 <= i < |items| && IsTodo(items[i]) && items[i].completed == done
  {
    if |items| > 0 {
      TallyPositive(items[1..], done);
      if Tally(items[1..], done) > 0 {
        var i :| 0 <= i < |items[1..]| && IsTodo(items[1..][i]) && items[1..][i].completed == done;
        assert items[i + 1] == items[1..][i];
      }
      if exists i :: 0 <= i < |items| && IsTodo(items[i]) && items[i].completed == done {
        var i :| 0 <= i < |items| && IsTodo(items[i]) && items[i].completed == done;
        if i > 0 {
          assert items[1..][i - 1] == items[i];
        }
      }
    }
  }

  /** Changing one record changes the tally by that record's contribution. */
  lemma {:induction false} TallyUpdate(items: seq<TodoItem>, k: nat, r: TodoItem, done: bool)
    requires k < |items|
    ensures Tally(items[k := r], done) + (if IsTodo(items[k]) && items[k].completed == done then 1 else 0)
         == Tally(items, done) + (if IsTodo(r) && r.completed == done then 1 else 0)
  {
    if k == 0 {
      assert items[k := r][1..] == items[1..];
    } else {
      assert items[k := r][1..] == items[1..][k - 1 := r];
      TallyUpdate(items[1..], k - 1, r, done);
    }
  }

  /** Toggling a `Todo` moves it from one count to the other; toggling
      anything else changes neither count. */
  lemma ToggleMovesOne(items: seq<TodoItem>, sel: nat)
    ensures var (inc, com) := CountTodos(items);
      var (inc', com') := CountTodos(ToggleCurrent(items, sel));
      if sel < |items| && IsTodo(items[sel]) then
        if items[sel].completed then inc' == inc + 1 && com' + 1 == com
        else inc' + 1 == inc && com' == com + 1
      else inc' == inc && com' == com
  {
    if sel < |items| && IsTodo(items[sel]) {
      var r := items[sel].(completed := !items[sel].completed);
      TallyUpdate(items, sel, r, false);
      TallyUpdate(items, sel, r, true);
    }
  }
}

=== FILE: session.dfy ===
/** The interactive session of `run_app`: how one terminal event changes the
    list and its selection, when the list is saved, when the session ends,
    and when finishing the last open item is celebrated. Drawing, the
    terminal modes and the fireworks themselves are outside the model; an
    outcome records what the session does next. */
module Session {
  import opened Outline
  import opened Selection

  /** The key codes the dispatch distinguishes; every other key is `OtherKey`. */
  datatype KeyCode = Char(c: char) | Up | Down | Enter | OtherKey

  datatype KeyEventKind = Press | Repeat | Release

  /** A terminal event: a key event, or anything else (mouse, resize, focus). */
  datatype Event = Key(code: KeyCode, kind: KeyEventKind) | NonKey

  datatype Action = Quit | MoveNext | MovePrevious | Top | Bottom | Toggle | Ignore

  /** The `match` on the key code, applied to key presses only: exactly these
      keys do something, and only when pressed. */
  function ActionOf(ev: Event): (a: Action)
    ensures a == Quit <==> ev == Key(Char('q'), Press)
    ensures a == MoveNext <==> ev == Key(Char('j'), Press) || ev == Key(Down, Press)
    ensures a == MovePrevious <==> ev == Key(Char('k'), Press) || ev == Key(Up, Press)
    ensures a == Top <==> ev == Key(Char('g'), Press)
    ensures a == Bottom <==> ev == Key(Char('G'), Press)
    ensures a == Toggle <==> ev == Key(Char(' '), Press) || ev == Key(Enter, Press)
    ensures ev.NonKey? || ev.kind != Press ==> a == Ignore
  {
    match ev
    case NonKey => Ignore
    case Key(code, kind) =>
      if kind != Press then Ignore
      else match code
        case Char(c) =>
          if c == 'q' then Quit
          else if c == 'j' then MoveNext
          else if c == 'k' then MovePrevious
          else if c == 'g' then Top
          else if c == 'G' then Bottom
          else if c == ' ' then Toggle
          else Ignore
        case Down => MoveNext
        case Up => MovePrevious
        case Enter => Toggle
        case OtherKey => Ignore
  }

  /** The part of `App` the session changes. */
  datatype State = State(items: seq<TodoItem>, sel: nat)

  predicate Valid(st: State) {
    SelectionValid(|st.items|, st.sel)
  }

  /** The cursor rests on a `Todo` whenever the list has one. */
  predicate OnTodo(st: State) {
    HasTodo(st.items) ==> st.sel < |st.items| && IsTodo(st.items[st.sel])
  }

  /** What the session does after an event: wait for the next one, save and
      stop, or save and celebrate and then wait. A save carries the content
      written. */
  datatype Outcome = Continue | QuitAfterSave(content: string) | CelebrateAfterSave(content: string)

  datatype StepResult = StepResult(state: State, outcome: Outcome)

  predicate HasIncomplete(items: seq<TodoItem>) {
    exists i :: 0 <= i < |items| && IsTodo(items[i]) && !items[i].completed
  }

  predicate AllComplete(items: seq<TodoItem>) {
    forall i :: 0 <= i < |items| && IsTodo(items[i]) ==> items[i].completed
  }

  /** The trigger of the celebration: there was an open `Todo` before the
      toggle, none after it, and the list has a `Todo`. */
  predicate Celebrates(before: seq<TodoItem>, after: seq<TodoItem>)
    ensures (|after| == |before| && forall i :: 0 <= i < |before| ==> after[i].lineType == before[i].lineType) ==>
      (Celebrates(before, after) <==> HasIncomplete(before) && AllComplete(after))
  {
    HasIncomplete(before) && AllComplete(after) && HasTodo(after)
  }

  /** The session as `App::new` starts it. */
  function Init(items: seq<TodoItem>): (st: State)
    ensures Valid(st) && OnTodo(st)
  {
    State(items, InitialSelection(items))
  }

  /** One event of `run_app`. */
  function Step(st: State, ev: Event): (res: StepResult)
    requires Valid(st)
    ensures Valid(res.state)
    ensures |res.state.items| == |st.items|
    ensures forall i :: 0 <= i < |st.items| ==>
      res.state.items[i].text == st.items[i].text && res.state.items[i].lineType == st.items[i].lineType
    ensures ActionOf(ev) != Toggle ==> res.state.items == st.items
    ensures ActionOf(ev) == Ignore ==> res == StepResult(st, Continue)
    ensures res.outcome.QuitAfterSave? <==> ActionOf(ev) == Quit
    ensures res.outcome.QuitAfterSave? ==> res.state == st && res.outcome.content == Serialize(st.items)
    ensures res.outcome.CelebrateAfterSave? ==>
      ActionOf(ev) == Toggle && res.outcome.content == Serialize(res.state.items)
    ensures ActionOf(ev) == MoveNext ==> res == StepResult(st.(sel := Move(st.items, st.sel, Forward)), Continue)
    ensures ActionOf(ev) == MovePrevious ==>
      res == StepResult(st.(sel := Move(st.items, st.sel, Backward)), Continue)
    ensures ActionOf(ev) == Top ==> res == StepResult(st.(sel := GotoTop(st.items)), Continue)
    ensures ActionOf(ev) == Bottom ==> res == StepResult(st.(sel := GotoBottom(st.items)), Continue)
    ensures ActionOf(ev) == Toggle ==> res.state == st.(items := ToggleCurrent(st.items, st.sel))
    ensures ActionOf(ev) == Toggle ==>
      (res.outcome.CelebrateAfterSave? <==> Celebrates(st.items, res.state.items))
  {
    var items := st.items;
    match ActionOf(ev)
    case Quit => StepResult(st, QuitAfterSave(Serialize(items)))
    case MoveNext => MoveSpec(items, st.sel, Forward); StepResult(st.(sel := Move(items, st.sel, Forward)), Continue)
    case MovePrevious =>
      MoveSpec(items, st.sel, Backward); StepResult(st.(sel := Move(items, st.sel, Backward)), Continue)
    case Top => StepResult(st.(sel := GotoTop(items)), Continue)
    case Bottom => StepResult(st.(sel := GotoBottom(items)), Continue)
    case Toggle =>
      var after := ToggleCurrent(items, st.sel);
      StepResult(st.(items := after),
                 if Celebrates(items, after) then CelebrateAfterSave(Serialize(after)) else Continue)
    case Ignore => StepResult(st, Continue)
  }

  /** Every event keeps the cursor on a `Todo` when there is one. */
  lemma StepKeepsOnTodo(st: State, ev: Event)
    requires Valid(st) && OnTodo(st)
    ensures OnTodo(Step(st, ev).state)
  {
    var res := Step(st, ev);
    if HasTodo(res.state.items) {
      var i :| 0 <= i < |res.state.items| && IsTodo(res.state.items[i]);
      assert IsTodo(st.items[i]);
      MoveSpec(st.items, st.sel, Forward);
      MoveSpec(st.items, st.sel, Backward);
    }
  }

  /** The celebration fires exactly when the toggle completes the only open
      `Todo`: the selected record is an open `Todo` and every other `Todo` is
      complete. */
  lemma CelebratesIff(items: seq<TodoItem>, sel: nat)
    ensures Celebrates(items, ToggleCurrent(items, sel)) <==>
      && sel < |items| && IsTodo(items[sel]) && !items[sel].completed
      && (forall j :: 0 <= j < |items| && j != sel && IsTodo(items[j]) ==> items[j].completed)
  {
    var after := ToggleCurrent(items, sel);
    if Celebrates(items, after) {
      var i :| 0 <= i < |items| && IsTodo(items[i]) && !items[i].completed;
      assert after[i].completed;
    }
    if sel < |items| && IsTodo(items[sel]) && !items[sel].completed
       && (forall j :: 0 <= j < |items| && j != sel && IsTodo(items[j]) ==> items[j].completed) {
      assert IsTodo(after[sel]);
    }
  }

  /** Re-opening a completed `Todo` never celebrates. */
  lemma ReopenNeverCelebrates(items: seq<TodoItem>, sel: nat)
    requires sel < |items| && IsTodo(items[sel]) && items[sel].completed
    ensures !Celebrates(items, ToggleCurrent(items, sel))
  {
    CelebratesIff(items, sel);
  }

  /** The trigger's last conjunct adds nothing: a toggle keeps the kinds, so
      an open `Todo` before it is a `Todo` after it. */
  lemma ThirdConjunctRedundant(items: seq<TodoItem>, sel: nat)
    ensures Celebrates(items, ToggleCurrent(items, sel)) <==>
      HasIncomplete(items) && AllComplete(ToggleCurrent(items, sel))
  {
    var after := ToggleCurrent(items, sel);
    if HasIncomplete(items) {
      var i :| 0 <= i < |items| && IsTodo(items[i]) && !items[i].completed;
      assert IsTodo(after[i]);
    }
  }

  /** In the counts of `count_todos`: the celebration fires exactly when the
      toggle takes the incomplete count from one to zero. */
  lemma CelebratesCounts(items: seq<TodoItem>, sel: nat)
    ensures Celebrates(items, ToggleCurrent(items, sel)) <==>
      CountTodos(items).0 == 1 && CountTodos(ToggleCurrent(items, sel)).0 == 0
  {
    var after := ToggleCurrent(items, sel);
    ThirdConjunctRedundant(items, sel);
    TallyPositive(items, false);
    TallyPositive(after, false);
    ToggleMovesOne(items, sel);
  }

  /** The events the fireworks consume: every event up to and including the
      first key event, whatever its kind. What is left goes back to the
      dispatch. */
  function AfterDismiss(evs: seq<Event>): (rest: seq<Event>)
    ensures |rest| <= |evs| && rest == evs[|evs| - |rest|..]
    ensures forall i :: 0 <= i < |evs| - |rest| - 1 ==> evs[i].NonKey?
    ensures || (|rest| < |evs| && evs[|evs| - |rest| - 1].Key?)
            || (rest == [] && forall i :: 0 <= i < |evs| ==> evs[i].NonKey?)
  {
    if |evs| == 0 then []
    else if evs[0].Key? then evs[1..]
    else AfterDismiss(evs[1..])
  }

  /** The events of a session up to the first quit: the state it ends in,
      the contents saved on the way, and whether it quit. After a
      celebration, the key event that dismisses the fireworks never reaches
      the dispatch. */
  function Run(st: State, evs: seq<Event>): (res: (State, seq<string>, bool))
    requires Valid(st)
    ensures Valid(res.0) && |res.0.items| == |st.items|
    ensures forall i :: 0 <= i < |st.items| ==>
      res.0.items[i].text == st.items[i].text && res.0.items[i].lineType == st.items[i].lineType
    ensures !res.2 ==> |res.1| <= |evs|
    decreases |evs|
  {
    if |evs| == 0 then (st, [], false)
    else
      var step := Step(st, evs[0]);
      match step.outcome
      case QuitAfterSave(content) => (step.state, [content], true)
      case CelebrateAfterSave(content) =>
        var (final, saves, quit) := Run(step.state, AfterDismiss(evs[1..]));
        (final, [content] + saves, quit)
      case Continue => Run(step.state, evs[1..])
  }

  /** The first event of a non-empty run, in the terms the lemmas below use. */
  lemma RunCons(st: State, evs: seq<Event>)
    requires Valid(st) && |evs| > 0
    ensures var step := Step(st, evs[0]);
      && (step.outcome.QuitAfterSave? ==> Run(st, evs) == (step.state, [step.outcome.content], true))
      && (step.outcome.Continue? ==> Run(st, evs) == Run(step.state, evs[1..]))
      && (step.outcome.CelebrateAfterSave? ==>
            var rest := Run(step.state, AfterDismiss(evs[1..]));
            Run(st, evs) == (rest.0, [step.outcome.content] + rest.1, rest.2))
  {
  }

  /** A run that ended in a quit saved, last, the list it ended with. */
  predicate QuitSavedLast(res: (State, seq<string>, bool)) {
    res.2 ==> |res.1| > 0 && res.1[|res.1| - 1] == Serialize(res.0.items)
  }

  /** A session that quits has saved its final list last. */
  lemma {:induction false} RunQuitSavesLast(st: State, evs: seq<Event>)
    requires Valid(st)
    ensures QuitSavedLast(Run(st, evs))
    decreases |evs|
  {
    if |evs| > 0 {
      var step := Step(st, evs[0]);
      RunCons(st, evs);
      match step.outcome
      case QuitAfterSave(_) =>
      case CelebrateAfterSave(content) =>
        RunQuitSavesLast(step.state, AfterDismiss(evs[1..]));
        EarlierSaveKeepsLast(content, Run(step.state, AfterDismiss(evs[1..])));
      case Continue =>
        RunQuitSavesLast(step.state, evs[1..]);
    }
  }

  lemma EarlierSaveKeepsLast(content: string, res: (State, seq<string>, bool))
    requires QuitSavedLast(res)
    ensures QuitSavedLast((res.0, [content] + res.1, res.2))
  {
    if res.2 {
      assert ([content] + res.1)[|res.1|] == res.1[|res.1| - 1];
    }
  }

  /** The cursor stays on a `Todo` for a whole session. */
  lemma {:induction false} RunKeepsOnTodo(st: State, evs: seq<Event>)
    requires Valid(st) && OnTodo(st)
    ensures OnTodo(Run(st, evs).0)
    decreases |evs|
  {
    if |evs| > 0 {
      StepKeepsOnTodo(st, evs[0]);
      RunCons(st, evs);
      var step := Step(st, evs[0]);
      if step.outcome.CelebrateAfterSave? {
        RunKeepsOnTodo(step.state, AfterDismiss(evs[1..]));
      } else if step.outcome.Continue? {
        RunKeepsOnTodo(step.state, evs[1..]);
      }
    }
  }

  /** A one-item list: checking the item celebrates and saves it checked;
      unchecking it again does not celebrate. */
  lemma SingleItemCelebration()
    ensures var st := Init([TodoItem("water plants", false, Todo)]);
      var first := Step(st, Key(Char(' '), Press));
      && first.outcome == CelebrateAfterSave(Serialize([TodoItem("water plants", true, Todo)]))
      && Step(first.state, Key(Enter, Press)).outcome == Continue
  {
    var items := [TodoItem("water plants", false, Todo)];
    var st := Init(items);
    assert st.sel == 0;
    CelebratesIff(items, 0);
    var after := ToggleCurrent(items, 0);
    assert after == [TodoItem("water plants", true, Todo)];
    ReopenNeverCelebrates(after, 0);
  }

  /** A toggle celebrates exactly when it completes the only open `Todo`. */
  lemma StepCelebratesIff(st: State, ev: Event)
    requires Valid(st) && ActionOf(ev) == Toggle
    ensures Step(st, ev).outcome.CelebrateAfterSave? <==>
      && st.sel < |st.items| && IsTodo(st.items[st.sel]) && !st.items[st.sel].completed
      && (forall j :: 0 <= j < |st.items| && j != st.sel && IsTodo(st.items[j]) ==> st.items[j].completed)
  {
    CelebratesIff(st.items, st.sel);
  }

  /** After a celebration, the next key event only dismisses the fireworks:
      the session goes on from the event after it, with the celebration's
      save first. */
  lemma RunSkipsDismissKey(st: State, evs: seq<Event>)
    requires Valid(st) && |evs| >= 2 && evs[1].Key?
    requires Step(st, evs[0]).outcome.CelebrateAfterSave?
    ensures var step := Step(st, evs[0]);
      var rest := Run(step.state, evs[2..]);
      Run(st, evs) == (rest.0, [step.outcome.content] + rest.1, rest.2)
  {
    RunCons(st, evs);
    assert AfterDismiss(evs[1..]) == evs[2..];
  }

  /** The key that dismisses the fireworks is not dispatched: checking the
      only item and then pressing `q` celebrates once, saves once, and does
      not quit. */
  lemma CelebrationSwallowsKey()
    ensures var st := Init([TodoItem("water plants", false, Todo)]);
      Run(st, [Key(Char(' '), Press), Key(Char('q'), Press)])
        == (State([TodoItem("water plants", true, Todo)], 0),
            [Serialize([TodoItem("water plants", true, Todo)])], false)
  {
    var done := [TodoItem("water plants", true, Todo)];
    SingleItemCelebration();
    var st := Init([TodoItem("water plants", false, Todo)]);
    var evs := [Key(Char(' '), Press), Key(Char('q'), Press)];
    var step := Step(st, evs[0]);
    assert step.state == State(done, 0) && step.outcome == CelebrateAfterSave(Serialize(done)) by {
      assert st.sel == 0;
      assert ToggleCurrent(st.items, 0) == done;
    }
    assert AfterDismiss(evs[1..]) == [] by {
      assert evs[1..] == [Key(Char('q'), Press)];
    }
    assert Run(step.state, []) == (step.state, [], false);
    assert [Serialize(done)] + [] == [Serialize(done)];
    assert Run(st, evs) == (step.state, [Serialize(done)] + [], false);
  }
}

=== FILE: strings.dfy ===
/** Character and string helpers the outline model is built on: Rust's notion of
    whitespace and `str::trim`, `str::starts_with`, and the line splitting done by
    `BufRead::lines`. */
module Strings {

  /** Rust's `char::is_whitespace`: the characters carrying the Unicode
      White_Space property. */
  predicate IsWs(c: char) {
    ('\t' <= c <= '\r') || c == ' ' || c == '\U{0085}' || c == '\U{00A0}'
    || c == '\U{1680}' || ('\U{2000}' <= c <= '\U{200A}') || c == '\U{2028}'
    || c == '\U{2029}' || c == '\U{202F}' || c == '\U{205F}' || c == '\U{3000}'
  }

  /** Rust's `str::starts_with` for a string pattern. */
  predicate HasPrefix(s: string, p: string) {
    |p| <= |s| && s[..|p|] == p
  }

  predicate AllWs(s: string) {
    forall i :: 0 <= i < |s| ==> IsWs(s[i])
  }

  /** Neither end of `t` is whitespace: the strings `str::trim` returns. */
  predicate IsTrimmed(t: string) {
    |t| == 0 || (!IsWs(t[0]) && !IsWs(t[|t| - 1]))
  }

  predicate NoNewline(s: string) {
    forall i :: 0 <= i < |s| ==> s[i] != '\n'
  }

  /** Rust's `str::trim_start`: the suffix left after the longest whitespace prefix. */
  function TrimStart(s: string): (r: string)
    ensures |r| <= |s| && r == s[|s| - |r|..]
    ensures |r| > 0 ==> !IsWs(r[0])
    decreases |s|
  {
    if |s| > 0 && IsWs(s[0]) then TrimStart(s[1..]) else s
  }

  /** Rust's `str::trim_end`: the prefix left after the longest whitespace suffix. */
  function TrimEnd(s: string): (r: string)
    ensures |r| <= |s| && r == s[..|r|]
    ensures |r| > 0 ==> !IsWs(r[|r| - 1])
    decreases |s|
  {
    if |s| > 0 && IsWs(s[|s| - 1]) then TrimEnd(s[..|s| - 1]) else s
  }

  /** Rust's `str::trim`: whitespace removed from both ends. The result is
      trimmed, and a trimmed input is returned unchanged. */
  function Trim(s: string): (r: string)
    ensures IsTrimmed(r)
    ensures IsTrimmed(s) ==> r == s
  {
    TrimStart(TrimEnd(s))
  }

  /** `trim` returns the empty string exactly for an all-whitespace input. */
  lemma TrimEmptyIffAllWs(s: string)
    ensures Trim(s) == [] <==> AllWs(s)
  {
    var e := TrimEnd(s);
    var r := TrimStart(e);
    TrimEndDropsWs(s);
    TrimStartDropsWs(e);
  }

  /** Every character `trim` keeps comes from its input. */
  lemma TrimNoNewline(s: string)
    requires NoNewline(s)
    ensures NoNewline(Trim(s))
  {
    var e := TrimEnd(s);
    var r := TrimStart(e);
    assert r == s[|e| - |r|..|e|];
    SliceNoNewline(s, |e| - |r|, |e|);
  }

  lemma SliceNoNewline(s: string, a: nat, b: nat)
    requires NoNewline(s) && a <= b <= |s|
    ensures NoNewline(s[a..b])
  {
    assert forall i :: 0 <= i < b - a ==> s[a..b][i] == s[a + i];
  }

  /** What `trim_start` drops is whitespace. */
  lemma {:induction false} TrimStartDropsWs(s: string)
    ensures forall i :: 0 <= i < |s| - |TrimStart(s)| ==> IsWs(s[i])
    decreases |s|
  {
    if |s| > 0 && IsWs(s[0]) {
      TrimStartDropsWs(s[1..]);
    }
  }

  /** What `trim_end` drops is whitespace. */
  lemma {:induction false} TrimEndDropsWs(s: string)
    ensures forall i :: |TrimEnd(s)| <= i < |s| ==> IsWs(s[i])
    decreases |s|
  {
    if |s| > 0 && IsWs(s[|s| - 1]) {
      TrimEndDropsWs(s[..|s| - 1]);
    }
  }

  /** `trim_start` keeps a string that starts solid and drops a first blank. */
  lemma TrimStartFirst(s: string)
    requires |s| > 0
    ensures !IsWs(s[0]) ==> TrimStart(s) == s
    ensures IsWs(s[0]) ==> TrimStart(s) == TrimStart(s[1..])
  {
  }

  /** `trim_end` keeps a string that ends solid and drops a final blank. */
  lemma TrimEndLast(s: string)
    requires |s| > 0
    ensures !IsWs(s[|s| - 1]) ==> TrimEnd(s) == s
    ensures IsWs(s[|s| - 1]) ==> TrimEnd(s) == TrimEnd(s[..|s| - 1])
  {
  }

  /** A space in front of a trimmed string is all that `trim` removes. */
  lemma TrimSpacePrefix(t: string)
    requires IsTrimmed(t)
    ensures Trim(" " + t) == t
  {
    if |t| == 0 {
      assert TrimEnd(" ") == TrimEnd("");
    } else {
      var line := " " + t;
      assert line[|line| - 1] == t[|t| - 1];
      assert TrimEnd(line) == line;
      assert line[1..] == t;
      assert TrimStart(line) == TrimStart(t) == t;
    }
  }

  /** `trim_end` of a concatenation only reaches into the left part when the
      right part is all whitespace. */
  lemma {:induction false} TrimEndAppend(p: string, s: string)
    ensures TrimEnd(p + s) == if TrimEnd(s) == [] then TrimEnd(p) else p + TrimEnd(s)
    decreases |s|
  {
    if |s| == 0 {
      assert p + s == p;
    } else if IsWs(s[|s| - 1]) {
      assert (p + s)[..|p + s| - 1] == p + s[..|s| - 1];
      TrimEndAppend(p, s[..|s| - 1]);
    }
  }

  /** Index of the first `c` in `s`, or `|s|` when there is none. */
  function IndexOf(s: string, c: char): (k: nat)
    ensures k <= |s|
    ensures k < |s| ==> s[k] == c
  {
    if |s| == 0 || s[0] == c then 0 else 1 + IndexOf(s[1..], c)
  }

  /** `IndexOf` finds the first occurrence. */
  lemma {:induction false} IndexOfFirst(s: string, c: char)
    ensures forall i :: 0 <= i < IndexOf(s, c) ==> s[i] != c
    decreases |s|
  {
    if |s| > 0 && s[0] != c {
      IndexOfFirst(s[1..], c);
    }
  }

  /** The lines `BufRead::lines` yields for a text: pieces between newlines,
      with no empty piece after a final newline and none for an empty text. */
  function SplitLines(s: string): (ls: seq<string>)
    ensures |s| == 0 <==> |ls| == 0
    decreases |s|
  {
    if |s| == 0 then []
    else
      var k := IndexOf(s, '\n');
      if k == |s| then [s] else [s[..k]] + SplitLines(s[k + 1..])
  }

  /** No line contains a newline. */
  lemma {:induction false} SplitLinesNoNewline(s: string)
    ensures forall i :: 0 <= i < |SplitLines(s)| ==> NoNewline(SplitLines(s)[i])
    decreases |s|
  {
    if |s| > 0 {
      var k := IndexOf(s, '\n');
      IndexOfFirst(s, '\n');
      if k < |s| {
        SplitLinesNoNewline(s[k + 1..]);
      }
    }
  }

  /** Every line followed by a newline, concatenated. */
  function JoinLines(ls: seq<string>): (s: string)
    ensures |s| == 0 <==> |ls| == 0
    ensures |s| > 0 ==> s[|s| - 1] == '\n'
  {
    if |ls| == 0 then "" else ls[0] + "\n" + JoinLines(ls[1..])
  }

  /** A line without newlines is exactly what `IndexOf` finds before the first
      newline of `line + "\n" + rest`. */
  lemma FirstLineOf(line: string, rest: string)
    requires NoNewline(line)
    ensures IndexOf(line + "\n" + rest, '\n') == |line|
    ensures (line + "\n" + rest)[..|line|] == line
    ensures (line + "\n" + rest)[|line| + 1..] == rest
  {
    var s := line + "\n" + rest;
    var k := IndexOf(s, '\n');
    IndexOfFirst(s, '\n');
    assert s[|line|] == '\n';
    assert forall i :: 0 <= i < |line| ==> s[i] == line[i];
  }

  /** Splitting undoes joining, for lines without newlines. */
  lemma {:induction false} SplitJoin(ls: seq<string>)
    requires forall i :: 0 <= i < |ls| ==> NoNewline(ls[i])
    ensures SplitLines(JoinLines(ls)) == ls
    decreases |ls|
  {
    if |ls| > 0 {
      var rest := JoinLines(ls[1..]);
      FirstLineOf(ls[0], rest);
      SplitJoin(ls[1..]);
      if |rest| == 0 {
        assert |ls[1..]| == 0;
      }
    }
  }

  /** Joining undoes splitting, up to the final newline every line receives. */
  lemma {:induction false} JoinSplit(s: string)
    ensures JoinLines(SplitLines(s)) == if |s| == 0 || s[|s| - 1] == '\n' then s else s + "\n"
    decreases |s|
  {
    if |s| > 0 {
      var k := IndexOf(s, '\n');
      if k < |s| {
        var tail := s[k + 1..];
        JoinSplit(tail);
        if |tail| == 0 || tail[|tail| - 1] == '\n' {
          JoinSplitClosed(s, k);
        } else {
          JoinSplitOpen(s, k);
        }
      } else {
        IndexOfFirst(s, '\n');
        assert SplitLines(s) == [s];
        assert [s][1..] == [];
      }
    }
  }

  /** Joining the lines of a text that has a newline at `k`. */
  lemma SplitLinesStep(s: string, k: nat)
    requires k < |s| && k == IndexOf(s, '\n')
    ensures JoinLines(SplitLines(s)) == s[..k] + "\n" + JoinLines(SplitLines(s[k + 1..]))
  {
    SplitLinesCons(s, k);
    JoinCons(s[..k], SplitLines(s[k + 1..]));
  }

  lemma SplitLinesCons(s: string, k: nat)
    requires k < |s| && k == IndexOf(s, '\n')
    ensures SplitLines(s) == [s[..k]] + SplitLines(s[k + 1..])
  {
  }

  lemma JoinCons(line: string, ls: seq<string>)
    ensures JoinLines([line] + ls) == line + "\n" + JoinLines(ls)
  {
    assert ([line] + ls)[1..] == ls;
  }

  /** Cutting a text at a newline and putting it back together. */
  lemma CutAtNewline(s: string, k: nat)
    requires k < |s| && s[k] == '\n'
    ensures s == s[..k] + "\n" + s[k + 1..]
    ensures s + "\n" == s[..k] + "\n" + (s[k + 1..] + "\n")
    ensures k + 1 < |s| ==> s[|s| - 1] == s[k + 1..][|s| - k - 2]
  {
    assert s == s[..k] + "\n" + s[k + 1..];
  }

  /** The step of `JoinSplit` when the text after the first newline ends in one. */
  lemma JoinSplitClosed(s: string, k: nat)
    requires k < |s| && k == IndexOf(s, '\n')
    requires var tail := s[k + 1..]; (|tail| == 0 || tail[|tail| - 1] == '\n') && JoinLines(SplitLines(tail)) == tail
    ensures s[|s| - 1] == '\n' && JoinLines(SplitLines(s)) == s
  {
    SplitLinesStep(s, k);
    CutAtNewline(s, k);
  }

  /** The step of `JoinSplit` when the text after the first newline does not end in one. */
  lemma JoinSplitOpen(s: string, k: nat)
    requires k < |s| && k == IndexOf(s, '\n')
    requires var tail := s[k + 1..]; |tail| > 0 && tail[|tail| - 1] != '\n' && JoinLines(SplitLines(tail)) == tail + "\n"
    ensures s[|s| - 1] != '\n' && JoinLines(SplitLines(s)) == s + "\n"
  {
    SplitLinesStep(s, k);
    CutAtNewline(s, k);
  }

  /** A missing final newline does not change the lines: `BufRead::lines`
      yields the same sequence with or without it. */
  lemma FinalNewlineOptional(s: string)
    requires |s| > 0 && s[|s| - 1] != '\n'
    ensures SplitLines(s + "\n") == SplitLines(s)
  {
    JoinSplit(s);
    SplitLinesNoNewline(s);
    SplitJoin(SplitLines(s));
  }

  /** Appending one newline-terminated line to a text that is empty or ends in a
      newline appends exactly that line to its lines. */
  lemma AppendLine(s: string, line: string)
    requires |s| == 0 || s[|s| - 1] == '\n'
    requires NoNewline(line)
    ensures SplitLines(s + line + "\n") == SplitLines(s) + [line]
  {
    var ls := SplitLines(s);
    JoinSplit(s);
    SplitLinesNoNewline(s);
    JoinAppend(ls, line);
    assert JoinLines(ls + [line]) == s + line + "\n";
    SplitJoin(ls + [line]);
  }

  /** Joining distributes over appending one line. */
  lemma {:induction false} JoinAppend(ls: seq<string>, line: string)
    ensures JoinLines(ls + [line]) == JoinLines(ls) + line + "\n"
    decreases |ls|
  {
    if |ls| == 0 {
      assert ls + [line] == [line];
    } else {
      assert (ls + [line])[1..] == ls[1..] + [line];
      JoinAppend(ls[1..], line);
    }
  }
}
